=== FILE: README.md ===
# Best-fit allocator (memalloc) in Dafny

This project models `memalloc.c`, a small user-space allocator with three
public operations. `mymalloc` allocates, `mycalloc` allocates and zero-fills,
and `myfree` releases. Every allocation sits behind a `block_t` header with a
`size`, a `free` flag and a `next` link. The headers form one list that only
grows: `head` is the first block ever created and `tail` is the last one.
`findFreeBlock` scans the whole list for the best fit. That is the smallest
free block whose `size` covers the request; on a tie, the earliest one wins.
When nothing fits, `mymalloc` grows the heap with `sbrk` and appends a new
block.

The model's terms:

- **Blocks.** The allocator context is a value
  `Heap(blocks, head, tail)`. `blocks` lists the headers in creation order,
  which is also address order. Each `Block` carries `size`, `free`, `next` and
  its payload bytes.
- **Pointers.** A block is named by its position in that list. A pointer
  handed to a caller (`header + 1` in the program) is `PayloadOf(k)`; NULL is
  `Null`.
- **`Blocks.Valid`.** This is the invariant every operation keeps:
  - `head` is set exactly when a block exists, and names block 0;
  - `tail` names the last block;
  - each `next` names the following block, and the last one is NULL;
  - each payload is `size` bytes long.
- **`Blocks.Extends`.** This relation holds between any context and a later
  one: no block disappears or moves, and no size changes.
- **Growing the heap.** The heap-extension primitive `sbrk` is an input to the
  model, not a call: `Grow = Extended(memory) | Exhausted`. `memory` holds the
  new payload bytes, whose contents the allocator does not choose.
- **Operations.** Each operation is a pure function from a context to a new
  context (and, for the allocating calls, a pointer), and is modelled as one indivisible step. In the
  program only `mymalloc`'s scan-and-update (memalloc.c:61-118) holds
  `global_lock`; the zero-size return, `mycalloc`'s zero-fill and all of
  `myfree` run outside it.
- **The scan twice over.** `Scan.BestFitIn` is the scan as a recursive
  function. It uses the program's update rule: a block replaces the candidate
  only if it fits and is strictly smaller. `Scan.ScanFreeList` is the scan's
  loop, following `next` from `head`. Both are proved against one declarative
  definition of "best fit, earliest among equals" (`Scan.IsBestFitIn`).

Two places depart from the program on purpose. Both are listed under
"Findings":

- A failed `sbrk` gives NULL and leaves the context unchanged.
- A `mycalloc` whose `num * s` does not fit in a `size_t` returns NULL. The
  program instead wraps the product around.

`mycalloc` also zero-fills only when the allocation succeeded.

## Model

| member | source | states |
|---|---|---|
| Scan.BestFitIn | memalloc.c:27-46 | after the scan has seen the first n blocks: the candidate is None exactly when none of them is free with size >= s; otherwise the candidate is free, fits, is no larger than any fitting block seen, and is strictly smaller than every fitting block before it |
| Scan.FindFreeBlock | memalloc.c:20-49 | NULL exactly when no block in the list (the empty list included) is free with size >= s; otherwise a free block with size >= s, of the least such size, and the earliest among equals |
| Scan.ScanFreeList | memalloc.c:20-49 | the loop that follows `next` from `head` until NULL returns the best fit as characterised above, NULL exactly when nothing fits, and the same answer as FindFreeBlock; it only reads the context |
| Scan.BestFitUnique | memalloc.c:38-41 | because a block replaces the candidate only when it is strictly smaller, at most one block meets the best-fit characterisation |
| Scan.FindFreeBlockIsBestFit | memalloc.c:30-41 | any block that meets the best-fit characterisation is exactly what the scan returns |
| Allocator.SetFree | memalloc.c:71 | flipping a block's flag (line 71 clears it, line 152 sets it) changes only that flag: the block count, every size, every payload and every other block stay as they were, and the context stays valid |
| Allocator.AppendBlock | memalloc.c:90-108 | the growth path adds exactly one block, with size s, not free and NULL next; the old tail links to it, it becomes the tail, and it becomes the head when the list was empty; earlier blocks keep size, flag and payload |
| Allocator.Malloc | memalloc.c:52-122 | a zero request gives NULL with the context unchanged; any NULL result leaves the context unchanged; a result is in use, holds at least s bytes, and was free before or is new. When some free block fits, the result is the best fit and no block is added. When none fits, one block of exactly s bytes, holding the memory `sbrk` supplied, is appended as the new tail, or NULL is returned if the heap cannot grow. Every block except the one handed out keeps size, flag and payload |
| Allocator.ZeroFill | memalloc.c:138 | the first n payload bytes of the block become zero; the rest of its payload, its flag and every other block are unchanged |
| Allocator.ZeroAllocate | memalloc.c:134-139 | picks the same block as `mymalloc(total)` and leaves the same number of blocks; on success the block is in use, holds at least total bytes, its first total bytes are zero and the rest are as `mymalloc` left them; every other block keeps size, flag and payload; on NULL the context is unchanged |
| Allocator.Calloc | memalloc.c:125-140 | a zero count or size gives NULL with nothing touched (an overflowing product also gives NULL); otherwise it picks the block `mymalloc(num * s)` would pick and leaves as many blocks as it does; a result is in use with at least num * s bytes, the first num * s of them zero and the rest as `mymalloc` left them; every other block keeps size, flag and payload |
| Allocator.Free | memalloc.c:143-154 | NULL leaves the context unchanged; otherwise exactly the addressed block becomes free, with its size and payload kept, and every other block is unchanged; releasing a block that is already free changes nothing |
| Allocator.Apply | memalloc.c:52-154 | each public call, whose caller keeps the contract, leaves the context valid and extends it |
| Allocator.Run | memalloc.c:14-17 | across any sequence of calls that keep their contract, `head`/`tail`/`next` stay consistent with the block list, no block is removed or moved, and no size changes |
| Properties.ReleaseThenSameRequestReuses | memalloc.c:65-76 | allocating s bytes, releasing the result and asking for s bytes again returns the same block and exactly the same context as the first allocation (no growth, no coalescing) |
| Properties.ConsecutiveAllocationsDistinct | memalloc.c:30 | two allocations with no release between them never return the same block |
| Properties.SmallestFitChosen | memalloc.c:38-41 | with free blocks of 20 and 10 bytes, a request for 8 gets the 10-byte block even though the 20-byte block comes first |
| Properties.EarliestOfEqualFitsChosen | memalloc.c:38-41 | with two free blocks of equal size, the earlier one is chosen |
| Properties.ReleasedBlockReusedForSmallerRequest | memalloc.c:65-76 | starting from an empty heap: after allocating a and b and releasing the first, a request for c <= a reuses the first block without growing the heap |
| Properties.AdjacentFreeBlocksNotMerged | memalloc.c:84-112 | starting from an empty heap: after allocating a and b and releasing both, a request for a + b does not merge them but appends a new (a + b)-byte block |
| Properties.RunPrefixExtends | memalloc.c:90-108 | along a call sequence, every intermediate context is extended by the final one: blocks, once created, stay with their size |
| Findings.GrowReadingsDiffer | memalloc.c:84-87 | the as-written reading of `sbrk`'s result (failure only on NULL) and the intended one (failure only on `(void *)-1`) agree on every other address and differ at exactly those two: as written, the real failure value is taken as new memory |
| Findings.SbrkFailureMissed | memalloc.c:84-120 | when nothing fits and `sbrk` fails, the code as written still appends and hands out a block; read correctly, the call returns NULL and leaves the context unchanged |
| Findings.CallocTotalAsWritten | memalloc.c:134 | the total is num * s reduced modulo 2^64; it equals num * s whenever that fits in a `size_t` |
| Findings.CallocAsWritten | memalloc.c:125-136 | `mycalloc` with the wrapped total; it agrees with Calloc whenever num * s fits in a `size_t` |
| Findings.CallocOverflowUndersizes | memalloc.c:134-136 | for 2^32 + 1 elements of 2^32 bytes, the code as written returns a block of only 2^32 bytes, while Calloc returns NULL |

## Left out

- Locking: `global_lock` and its lock/unlock calls (memalloc.c:17, 61, 72, 110, 118) are not modelled. Each operation is one atomic step. The program's `myfree` takes no lock, and the unlocked flag write's race with a concurrent scan is outside a sequential model.
- The `printf` trace lines (memalloc.c:73, 109, 137, 153) are output only.
- The unused `counter` in `findFreeBlock` (memalloc.c:24, 45) has no effect.
- Addresses are not modelled. Pointer arithmetic (`freeBlock + 1`, `(block_t *)ptr - 1`) and the header width `BLOCK_SIZE` are replaced by block positions. `sbrk` is an input that either supplies exactly the requested payload or fails. The `size_t` sum `BLOCK_SIZE + s` at memalloc.c:84 is not reduced modulo 2^64. For `s > SIZE_MAX - BLOCK_SIZE` the program's sum wraps to a small request that `sbrk` can grant, and it then writes a header claiming `s` bytes the heap never received. The model instead hands out a block of the full `s` bytes whenever the `sbrk` input supplies them.
- The contents of new heap memory come from the `sbrk` input. The model does not claim they are zero.
- Allocator.Free: requires NULL or a pointer to a block the allocator created. The program does not check this, and a pointer it never handed out is undefined behaviour there. Releasing a block twice is defined and is modelled: the flag is already set, so nothing changes. If the block was handed out again in between, the second release frees the new owner's block, exactly as the program does.
- Allocator.Calloc: returns NULL when `num * s` exceeds `SIZE_MAX`. The program wraps the product instead (see Findings).
- Allocator.ZeroAllocate: zero-fills only on success. The program calls `memset` on the result even when `mymalloc` returned NULL, which is undefined behaviour and is not modelled.
- Callers writing into their payloads is not modelled. The program has no operation for it.
- `size_t` is taken to be 64 bits wide.

## Findings

| source | as written | input that shows it | evidently intended | confidence | as-written member | corrected member |
|---|---|---|---|---|---|---|
| memalloc.c:84-87 | the growth path tests `sbrk`'s result against NULL, but `sbrk` reports failure with `(void *)-1`, so a failed extension takes the success branch and writes a header at an invalid address | a request no free block fits while `sbrk` cannot grow the heap | detect the failure, return NULL and leave the list unchanged | not executed; high | Findings.SbrkFailureMissed | Allocator.Malloc |
| memalloc.c:134 | `num * s` is computed in `size_t` and wraps modulo 2^64 | `mycalloc(0x100000001, 0x100000000)` on an empty heap returns a 2^32-byte block | fail with NULL when the product does not fit | not executed; high | Findings.CallocOverflowUndersizes | Allocator.Calloc |

=== FILE: allocator.dfy ===
/**
 The public operations of the allocator (`mymalloc`, `mycalloc`, `myfree`)
 as steps on the allocator context. Each operation is modelled as one
 indivisible step. In the program only the scan-and-update part of
 `mymalloc` holds the allocator's lock: its zero-size return comes before
 the lock, `mycalloc`'s zero-fill runs after `mymalloc` has released it,
 and `myfree` takes no lock at all.
 */
module Allocator {
  import opened Blocks
  import opened Scan

  /** What the heap-extension primitive (`sbrk`) did when asked for one
      header plus `s` payload bytes: it produced fresh memory whose payload
      bytes the allocator does not choose, or it could not grow the heap. */
  datatype Grow = Extended(memory: seq<byte>) | Exhausted

  /** `g` is a possible answer to a request for `s` payload bytes. */
  predicate Supplies(g: Grow, s: nat)
  {
    g.Extended? ==> |g.memory| == s
  }

  /** The context after an allocation and the pointer it returned. */
  datatype Step = Step(heap: Heap, ptr: Ptr)

  /** Sets the `free` flag of block `k` and touches nothing else: used by
      `mymalloc` when it reuses a block and by `myfree`. */
  function SetFree(h: Heap, k: nat, flag: bool): (h': Heap)
    requires Valid(h) && k < |h.blocks|
    ensures Valid(h') && Extends(h, h') && |h'.blocks| == |h.blocks|
    ensures h'.blocks[k].free == flag
    ensures h'.blocks[k].size == h.blocks[k].size && h'.blocks[k].payload == h.blocks[k].payload
    ensures forall i :: 0 <= i < |h.blocks| && i != k ==> h'.blocks[i] == h.blocks[i]
  {
    h.(blocks := h.blocks[k := h.blocks[k].(free := flag)])
  }

  /** The growth path: a new header with `size = s`, `free = 0` and
      `next = NULL` after the old tail, which links to it; it becomes the
      tail, and the head as well when the list was empty. */
  function AppendBlock(h: Heap, s: nat, memory: seq<byte>): (h': Heap)
    requires Valid(h) && |memory| == s
    ensures Valid(h') && Extends(h, h') && |h'.blocks| == |h.blocks| + 1
    ensures h'.blocks[|h.blocks|].size == s && !h'.blocks[|h.blocks|].free
    ensures h'.blocks[|h.blocks|].payload == memory
    ensures h'.tail == Some(|h.blocks|)
    ensures h'.head == (if |h.blocks| == 0 then Some(|h.blocks|) else h.head)
    ensures forall i :: 0 <= i < |h.blocks| ==> SameContents(h'.blocks[i], h.blocks[i])
  {
    var n := |h.blocks|;
    var added := Block(s, false, None, memory);
    var head := if h.head.None? then Some(n) else h.head;
    var linked :=
      if h.tail.Some? then h.blocks[h.tail.value := h.blocks[h.tail.value].(next := Some(n))]
      else h.blocks;
    Heap(linked + [added], head, Some(n))
  }

  /** `mymalloc(s)`: NULL for a zero request; otherwise the best-fit free
      block, marked used; otherwise a new block from the heap-extension
      primitive `grow`; otherwise NULL. */
  function Malloc(h: Heap, s: SizeT, grow: Grow): (r: Step)
    requires Valid(h)
    requires Supplies(grow, s)
    ensures Valid(r.heap) && Extends(h, r.heap)
    ensures s == 0 ==> r == Step(h, Null)
    ensures r.ptr.Null? ==> r.heap == h
    // what is handed out is in use, big enough, and was not in use before
    ensures r.ptr.PayloadOf? ==> Allocated(r.heap, r.ptr) && r.heap.blocks[r.ptr.block].size >= s
    ensures r.ptr.PayloadOf? ==> r.ptr.block == |h.blocks| || (r.ptr.block < |h.blocks| && Fits(h.blocks[r.ptr.block], s))
    // reuse: the best fit, and no new block
    ensures s > 0 && !NoFitIn(h.blocks, s, |h.blocks|) ==>
              r.ptr.PayloadOf? && IsBestFitIn(h.blocks, s, |h.blocks|, r.ptr.block)
              && |r.heap.blocks| == |h.blocks|
              && r.heap.blocks[r.ptr.block].payload == h.blocks[r.ptr.block].payload
    // growth: exactly one block of exactly s bytes, or NULL when the heap cannot grow
    ensures s > 0 && NoFitIn(h.blocks, s, |h.blocks|) ==>
              (r.ptr.Null? <==> grow.Exhausted?)
              && (grow.Extended? ==> r.ptr == PayloadOf(|h.blocks|)
                                     && |r.heap.blocks| == |h.blocks| + 1
                                     && r.heap.blocks[|h.blocks|].size == s
                                     && r.heap.blocks[|h.blocks|].payload == grow.memory
                                     && r.heap.tail == Some(|h.blocks|)
                                     && r.heap.head == (if |h.blocks| == 0 then Some(|h.blocks|) else h.head))
    // no block other than the one handed out changes what a caller can see
    ensures forall i :: 0 <= i < |h.blocks| && r.ptr != PayloadOf(i) ==> SameContents(r.heap.blocks[i], h.blocks[i])
  {
    if s == 0 then Step(h, Null)
    else
      match FindFreeBlock(h.blocks, s)
      case Some(k) => Step(SetFree(h, k, false), PayloadOf(k))
      case None =>
        match grow
        case Exhausted => Step(h, Null)
        case Extended(memory) => Step(AppendBlock(h, s, memory), PayloadOf(|h.blocks|))
  }

  /** Overwrites the first `n` payload bytes of block `k` with zeroes
      (`memset(p, 0, n)`), leaving the rest of the block and the context as
      they are. */
  function ZeroFill(h: Heap, k: nat, n: nat): (h': Heap)
    requires Valid(h) && k < |h.blocks| && n <= h.blocks[k].size
    ensures Valid(h') && Extends(h, h') && |h'.blocks| == |h.blocks|
    ensures h'.head == h.head && h'.tail == h.tail
    ensures h'.blocks[k].free == h.blocks[k].free
    ensures forall i :: 0 <= i < n ==> h'.blocks[k].payload[i] == 0
    ensures forall i :: n <= i < h.blocks[k].size ==> h'.blocks[k].payload[i] == h.blocks[k].payload[i]
    ensures forall i :: 0 <= i < |h.blocks| && i != k ==> h'.blocks[i] == h.blocks[i]
  {
    var b := h.blocks[k];
    h.(blocks := h.blocks[k := b.(payload := Zeroes(n) + b.payload[n..])])
  }

  /** `mymalloc(total)` followed, only when it succeeded, by zeroing the
      first `total` bytes of the block it returned. */
  function ZeroAllocate(h: Heap, total: SizeT, grow: Grow): (r: Step)
    requires Valid(h)
    requires Supplies(grow, total)
    ensures Valid(r.heap) && Extends(h, r.heap)
    ensures r.ptr == Malloc(h, total, grow).ptr
    ensures r.ptr.Null? ==> r.heap == h
    ensures r.ptr.PayloadOf? ==>
              && Allocated(r.heap, r.ptr)
              && r.heap.blocks[r.ptr.block].size >= total
              && forall i :: 0 <= i < total ==> r.heap.blocks[r.ptr.block].payload[i] == 0
    // `memset` writes only the first `total` bytes of the block `mymalloc` returned
    ensures |r.heap.blocks| == |Malloc(h, total, grow).heap.blocks|
    ensures r.ptr.PayloadOf? ==>
              r.heap.blocks[r.ptr.block].size == Malloc(h, total, grow).heap.blocks[r.ptr.block].size &&
              forall i :: total <= i < r.heap.blocks[r.ptr.block].size ==>
                r.heap.blocks[r.ptr.block].payload[i] == Malloc(h, total, grow).heap.blocks[r.ptr.block].payload[i]
    ensures forall i :: 0 <= i < |h.blocks| && r.ptr != PayloadOf(i) ==> SameContents(r.heap.blocks[i], h.blocks[i])
  {
    var m := Malloc(h, total, grow);
    match m.ptr
    case Null => m
    case PayloadOf(k) => Step(ZeroFill(m.heap, k, total), m.ptr)
  }

  /** `mycalloc(num, s)`: NULL when either count is zero; NULL as well when
      `num * s` does not fit in a `size_t` (the program wraps around here);
      otherwise a block of at least `num * s` bytes, all of them zero. */
  function Calloc(h: Heap, num: SizeT, s: SizeT, grow: Grow): (r: Step)
    requires Valid(h)
    requires num * s <= SIZE_MAX ==> Supplies(grow, num * s)
    ensures Valid(r.heap) && Extends(h, r.heap)
    ensures num == 0 || s == 0 || num * s > SIZE_MAX ==> r == Step(h, Null)
    ensures r.ptr.Null? ==> r.heap == h
    ensures r.ptr.PayloadOf? ==>
              && Allocated(r.heap, r.ptr)
              && r.heap.blocks[r.ptr.block].size >= num * s
              && forall i :: 0 <= i < num * s ==> r.heap.blocks[r.ptr.block].payload[i] == 0
    // the block chosen is the one `mymalloc(num * s)` would choose
    ensures 0 < num * s <= SIZE_MAX ==> r.ptr == Malloc(h, num * s, grow).ptr
    // nothing but `mymalloc` and the `memset` of the first `num * s` bytes
    ensures 0 < num * s <= SIZE_MAX ==> |r.heap.blocks| == |Malloc(h, num * s, grow).heap.blocks|
    ensures 0 < num * s <= SIZE_MAX && r.ptr.PayloadOf? ==>
              r.heap.blocks[r.ptr.block].size == Malloc(h, num * s, grow).heap.blocks[r.ptr.block].size &&
              forall i :: num * s <= i < r.heap.blocks[r.ptr.block].size ==>
                r.heap.blocks[r.ptr.block].payload[i] == Malloc(h, num * s, grow).heap.blocks[r.ptr.block].payload[i]
    ensures forall i :: 0 <= i < |h.blocks| && r.ptr != PayloadOf(i) ==> SameContents(r.heap.blocks[i], h.blocks[i])
  {
    if num == 0 || s == 0 then Step(h, Null)
    else if num * s > SIZE_MAX then Step(h, Null)
    else ZeroAllocate(h, num * s, grow)
  }

  /** `myfree(p)`: nothing for NULL; otherwise the block `p` points into is
      marked free and nothing else changes. A block that is already free
      stays as it is, so releasing a pointer twice is harmless here. */
  function Free(h: Heap, p: Ptr): (h': Heap)
    requires Valid(h)
    requires p.Null? || p.block < |h.blocks|
    ensures Valid(h') && Extends(h, h') && |h'.blocks| == |h.blocks|
    ensures p.Null? ==> h' == h
    ensures p.PayloadOf? ==>
              && h'.blocks[p.block].free
              && h'.blocks[p.block].size == h.blocks[p.block].size
              && h'.blocks[p.block].payload == h.blocks[p.block].payload
    ensures forall i :: 0 <= i < |h.blocks| && p != PayloadOf(i) ==> h'.blocks[i] == h.blocks[i]
    ensures p.PayloadOf? && h.blocks[p.block].free ==> h' == h
  {
    match p
    case Null => h
    case PayloadOf(k) => SetFree(h, k, true)
  }

  /** One call on the public surface, with the heap-extension primitive's
      answer for the allocating calls. */
  datatype Call =
    | MallocCall(size: SizeT, grow: Grow)
    | CallocCall(num: SizeT, size: SizeT, grow: Grow)
    | FreeCall(ptr: Ptr)

  /** The call keeps its side of the contract: `myfree` gets NULL or a
      pointer the allocator handed out, and the extension primitive answers the request made. */
  predicate Permitted(h: Heap, c: Call)
  {
    match c
    case MallocCall(s, g) => Supplies(g, s)
    case CallocCall(num, s, g) => num * s <= SIZE_MAX ==> Supplies(g, num * s)
    case FreeCall(p) => p.Null? || p.block < |h.blocks|
  }

  /** The context after one permitted call. */
  function Apply(h: Heap, c: Call): (h': Heap)
    requires Valid(h) && Permitted(h, c)
    ensures Valid(h') && Extends(h, h')
  {
    match c
    case MallocCall(s, g) => Malloc(h, s, g).heap
    case CallocCall(num, s, g) => Calloc(h, num, s, g).heap
    case FreeCall(p) => Free(h, p)
  }

  /** The context after a sequence of calls, or None when one of them breaks
      its side of the contract (the program's behaviour is undefined then). */
  function Run(h: Heap, calls: seq<Call>): (r: Option<Heap>)
    requires Valid(h)
    ensures r.Some? ==> Valid(r.value) && Extends(h, r.value)
    decreases |calls|
  {
    if |calls| == 0 then Some(h)
    else if !Permitted(h, calls[0]) then None
    else Run(Apply(h, calls[0]), calls[1..])
  }
}

=== FILE: blocks.dfy ===
/**
 The data of the best-fit allocator: block headers, the payload bytes that
 follow each header, and the allocator context (`head`, `tail`).

 Blocks are never moved or removed, so a block is named by its position in
 creation order, which is also address order. Position 0 is the block `head`
 points at, the last position is the block `tail` points at, and a pointer
 handed to a caller is the position of the block whose header precedes it.
 */
module Blocks {

  /** The largest `size_t` on the 64-bit targets the allocator is built for. */
  const SIZE_MAX: nat := 0xFFFF_FFFF_FFFF_FFFF

  /** A value of C's `size_t`. */
  type SizeT = n: nat | n <= SIZE_MAX

  newtype byte = x: int | 0 <= x < 256

  datatype Option<+T> = None | Some(value: T)

  /** One `block_t` header together with the payload bytes that follow it.
      `next` is the position of the following block, or None for NULL. */
  datatype Block = Block(size: nat, free: bool, next: Option<nat>, payload: seq<byte>)

  /** What the public operations hand out: NULL, or the first payload byte of
      the block at position `block`. */
  datatype Ptr = Null | PayloadOf(block: nat)

  /** The allocator context: every block ever created, in creation order,
      and the `head` and `tail` globals as positions. */
  datatype Heap = Heap(blocks: seq<Block>, head: Option<nat>, tail: Option<nat>)

  /** The context before the first allocation. */
  const Empty: Heap := Heap([], None, None)

  /** Each header's `next` names the block created right after it, and the
      last one's is NULL. */
  predicate Linked(bs: seq<Block>)
  {
    forall i :: 0 <= i < |bs| ==> bs[i].next == (if i + 1 < |bs| then Some(i + 1) else None)
  }

  /** The invariant every operation keeps: `head` is set exactly when a
      block exists and names the first one, `tail` names the last one, the
      list is linked in creation order, and each payload is `size` bytes. */
  predicate Valid(h: Heap)
  {
    && h.head == (if |h.blocks| == 0 then None else Some(0))
    && h.tail == (if |h.blocks| == 0 then None else Some(|h.blocks| - 1))
    && Linked(h.blocks)
    && forall i :: 0 <= i < |h.blocks| ==> |h.blocks[i].payload| == h.blocks[i].size
  }

  /** `h2` can follow `h1`: no block was removed or moved (the list is
      append-only) and no block's size changed (no splitting, no merging). */
  predicate Extends(h1: Heap, h2: Heap)
  {
    && |h1.blocks| <= |h2.blocks|
    && forall i :: 0 <= i < |h1.blocks| ==> h2.blocks[i].size == h1.blocks[i].size
  }

  /** Block `b` can serve a request for `s` bytes. */
  predicate Fits(b: Block, s: nat)
  {
    b.free && b.size >= s
  }

  /** `p` points at a block that is currently handed out. */
  predicate Allocated(h: Heap, p: Ptr)
  {
    p.PayloadOf? && p.block < |h.blocks| && !h.blocks[p.block].free
  }

  /** Two headers agree on everything a caller can observe: size, flag and
      payload bytes (only the link may differ). */
  predicate SameContents(a: Block, b: Block)
  {
    a.size == b.size && a.free == b.free && a.payload == b.payload
  }

  /** `n` zero bytes. */
  function Zeroes(n: nat): (z: seq<byte>)
    ensures |z| == n
    ensures forall i :: 0 <= i < n ==> z[i] == 0
  {
    seq(n, _ => 0)
  }
}

=== FILE: findings.dfy ===
/**
 Two places where the program does not do what it evidently means to do,
 each modelled as written next to the corrected behaviour the rest of the
 model uses.
 */
module Findings {
  import opened Blocks
  import opened Scan
  import opened Allocator

  /** The address C's NULL stands for. */
  const NULL_ADDRESS: int := 0

  /** What `sbrk` returns when it cannot grow the heap: `(void *)-1`. */
  const SBRK_FAILED: int := -1

  /** How the growth path reads the value `sbrk` returned, as written: any
      result other than NULL is taken as new memory. */
  function GrowAsWritten(ret: int, memory: seq<byte>): (g: Grow)
    ensures g.Exhausted? <==> ret == NULL_ADDRESS
    ensures g.Extended? ==> g.memory == memory
  {
    if ret != NULL_ADDRESS then Extended(memory) else Exhausted
  }

  /** How it is meant to read it: only `(void *)-1` means failure. */
  function GrowCorrected(ret: int, memory: seq<byte>): (g: Grow)
    ensures g.Exhausted? <==> ret == SBRK_FAILED
    ensures g.Extended? ==> g.memory == memory
  {
    if ret != SBRK_FAILED then Extended(memory) else Exhausted
  }

  /** The two readings of `sbrk`'s result agree on every address except
      NULL and `(void *)-1`, and differ at exactly those two: as written,
      NULL is taken for failure and the real failure value for memory. */
  lemma GrowReadingsDiffer(ret: int, memory: seq<byte>)
    ensures GrowAsWritten(ret, memory) == GrowCorrected(ret, memory)
            <==> ret != NULL_ADDRESS && ret != SBRK_FAILED
    ensures ret == SBRK_FAILED ==> GrowAsWritten(ret, memory).Extended? && GrowCorrected(ret, memory).Exhausted?
    ensures ret == NULL_ADDRESS ==> GrowAsWritten(ret, memory).Exhausted? && GrowCorrected(ret, memory).Extended?
  {
  }

  /** When no free block fits and `sbrk` fails, the code as written still
      appends a block (whose header would sit at address -1) and hands it
      out; read correctly, the failure leaves the context unchanged and
      the caller gets NULL. */
  lemma SbrkFailureMissed(h: Heap, s: SizeT, memory: seq<byte>)
    requires Valid(h) && 0 < s && |memory| == s
    requires NoFitIn(h.blocks, s, |h.blocks|)
    ensures Malloc(h, s, GrowAsWritten(SBRK_FAILED, memory)).ptr == PayloadOf(|h.blocks|)
    ensures |Malloc(h, s, GrowAsWritten(SBRK_FAILED, memory)).heap.blocks| == |h.blocks| + 1
    ensures Malloc(h, s, GrowCorrected(SBRK_FAILED, memory)) == Step(h, Null)
  {
  }

  /** `num * s` as the program computes it: in `size_t`, modulo 2^64. */
  function CallocTotalAsWritten(num: SizeT, s: SizeT): (t: SizeT)
    ensures num * s <= SIZE_MAX ==> t == num * s
    ensures (t - num * s) % (SIZE_MAX + 1) == 0
  {
    (num * s) % (SIZE_MAX + 1)
  }

  /** `mycalloc` as written (apart from the `memset` on NULL, which is left
      out): the zero checks, then an allocation of the wrapped total. */
  function CallocAsWritten(h: Heap, num: SizeT, s: SizeT, grow: Grow): (r: Step)
    requires Valid(h)
    requires Supplies(grow, CallocTotalAsWritten(num, s))
    ensures Valid(r.heap) && Extends(h, r.heap)
    ensures num * s <= SIZE_MAX ==> r == Calloc(h, num, s, grow)
  {
    if num == 0 || s == 0 then Step(h, Null)
    else ZeroAllocate(h, CallocTotalAsWritten(num, s), grow)
  }

  /** An overflowing request: 2^32 + 1 elements of 2^32 bytes. As written,
      the total wraps to 2^32 and the caller receives a block far smaller
      than it asked for; corrected, the request fails with NULL. */
  lemma CallocOverflowUndersizes(memory: seq<byte>)
    requires |memory| == 0x1_0000_0000
    ensures var r := CallocAsWritten(Empty, 0x1_0000_0001, 0x1_0000_0000, Extended(memory));
            r.ptr == PayloadOf(0)
            && r.heap.blocks[0].size == 0x1_0000_0000
            && r.heap.blocks[0].size < 0x1_0000_0001 * 0x1_0000_0000
    ensures Calloc(Empty, 0x1_0000_0001, 0x1_0000_0000, Extended(memory)) == Step(Empty, Null)
  {
  }
}

=== FILE: properties.dfy ===
/**
 Facts about sequences of calls: reuse after release, best-fit choice,
 tie-breaking, absence of coalescing, and distinct allocations.
 */
module Properties {
  import opened Blocks
  import opened Allocator

  /** Releasing a block and asking again for the same size gets the same
      block back and leaves the context exactly as the first allocation
      left it: no growth and no other block touched. */
  lemma ReleaseThenSameRequestReuses(h: Heap, s: SizeT, g1: Grow, g2: Grow)
    requires Valid(h) && Supplies(g1, s) && Supplies(g2, s)
    requires Malloc(h, s, g1).ptr.PayloadOf?
    ensures Malloc(Free(Malloc(h, s, g1).heap, Malloc(h, s, g1).ptr), s, g2) == Malloc(h, s, g1)
  {
  }

  /** Two allocations in a row, with no release between them, never return
      the same block. */
  lemma ConsecutiveAllocationsDistinct(h: Heap, s1: SizeT, g1: Grow, s2: SizeT, g2: Grow)
    requires Valid(h) && Supplies(g1, s1) && Supplies(g2, s2)
    requires Malloc(h, s1, g1).ptr.PayloadOf?
    ensures Malloc(Malloc(h, s1, g1).heap, s2, g2).ptr != Malloc(h, s1, g1).ptr
  {
  }

  /** Two free blocks, 20 bytes then 10 bytes: a request for 8 gets the
      10-byte block although the 20-byte block comes first. */
  lemma SmallestFitChosen()
    ensures var h := Heap([Block(20, true, Some(1), Zeroes(20)), Block(10, true, None, Zeroes(10))], Some(0), Some(1));
            Valid(h) && Malloc(h, 8, Exhausted).ptr == PayloadOf(1)
  {
  }

  /** Two free blocks of the same size: the earlier one is chosen. */
  lemma EarliestOfEqualFitsChosen()
    ensures var h := Heap([Block(10, true, Some(1), Zeroes(10)), Block(10, true, None, Zeroes(10))], Some(0), Some(1));
            Valid(h) && Malloc(h, 5, Exhausted).ptr == PayloadOf(0)
  {
  }

  /** Starting from an empty context: allocate `a`, allocate `b`, release
      the first block, then ask for `c <= a`. The first block is reused and
      the heap does not grow. */
  lemma ReleasedBlockReusedForSmallerRequest(a: SizeT, b: SizeT, c: SizeT, ma: seq<byte>, mb: seq<byte>, g: Grow)
    requires 0 < c <= a && 0 < b
    requires |ma| == a && |mb| == b && Supplies(g, c)
    ensures var h1 := Malloc(Empty, a, Extended(ma));
            var h2 := Malloc(h1.heap, b, Extended(mb));
            var h3 := Free(h2.heap, h1.ptr);
            var r := Malloc(h3, c, g);
            r.ptr == h1.ptr == PayloadOf(0) && |r.heap.blocks| == 2
  {
  }

  /** Starting from an empty context: allocate `a` and `b`, release both,
      then ask for `a + b`. The two adjacent free blocks are not merged; a
      new block of `a + b` bytes is created after them. */
  lemma AdjacentFreeBlocksNotMerged(a: SizeT, b: SizeT, ma: seq<byte>, mb: seq<byte>, mab: seq<byte>)
    requires 0 < a && 0 < b && a + b <= SIZE_MAX
    requires |ma| == a && |mb| == b && |mab| == a + b
    ensures var h1 := Malloc(Empty, a, Extended(ma));
            var h2 := Malloc(h1.heap, b, Extended(mb));
            var h3 := Free(Free(h2.heap, h1.ptr), h2.ptr);
            var r := Malloc(h3, a + b, Extended(mab));
            r.ptr == PayloadOf(2) && |r.heap.blocks| == 3 && r.heap.blocks[2].size == a + b
  {
  }

  /** Along a call sequence that keeps its contract, every intermediate
      context is extended by the final one: a block, once created, is still
      there with the same size after every later call. */
  lemma {:induction false} RunPrefixExtends(h: Heap, xs: seq<Call>, ys: seq<Call>)
    requires Valid(h)
    requires Run(h, xs + ys).Some?
    ensures Run(h, xs).Some?
    ensures Extends(Run(h, xs).value, Run(h, xs + ys).value)
    decreases |xs|
  {
    if |xs| == 0 {
      assert xs + ys == ys;
    } else {
      assert (xs + ys)[0] == xs[0];
      assert (xs + ys)[1..] == xs[1..] + ys;
      RunPrefixExtends(Apply(h, xs[0]), xs[1..], ys);
    }
  }
}

=== FILE: scan.dfy ===
/**
 The free-list scan (`findFreeBlock`): the smallest free block that holds
 the request, the earliest one among equals.
 */
module Scan {
  import opened Blocks

  /** No block among the first `n` can serve `s` bytes. */
  ghost predicate NoFitIn(bs: seq<Block>, s: nat, n: nat)
    requires n <= |bs|
  {
    forall j :: 0 <= j < n ==> !Fits(bs[j], s)
  }

  /** Among the first `n` blocks, `k` is the best fit for `s` bytes: it
      fits, no fitting block is smaller, and every fitting block before it is
      strictly larger (the earliest of the smallest wins). */
  ghost predicate IsBestFitIn(bs: seq<Block>, s: nat, n: nat, k: nat)
    requires n <= |bs|
  {
    && k < n
    && Fits(bs[k], s)
    && (forall j :: 0 <= j < n && Fits(bs[j], s) ==> bs[k].size <= bs[j].size)
    && (forall j :: 0 <= j < k && Fits(bs[j], s) ==> bs[k].size < bs[j].size)
  }

  /** At most one block is the best fit. */
  lemma BestFitUnique(bs: seq<Block>, s: nat, n: nat, k1: nat, k2: nat)
    requires n <= |bs|
    requires IsBestFitIn(bs, s, n, k1) && IsBestFitIn(bs, s, n, k2)
    ensures k1 == k2
  {
  }

  /** The best candidate after the scan has looked at the first `n`
      blocks: a block replaces the candidate only when it fits and is
      strictly smaller. */
  function BestFitIn(bs: seq<Block>, s: nat, n: nat): (r: Option<nat>)
    requires n <= |bs|
    ensures r.None? <==> NoFitIn(bs, s, n)
    ensures r.Some? ==> IsBestFitIn(bs, s, n, r.value)
  {
    if n == 0 then None
    else
      var best := BestFitIn(bs, s, n - 1);
      if Fits(bs[n - 1], s) && (best.None? || bs[best.value].size > bs[n - 1].size) then
        Some(n - 1)
      else
        best
  }

  /** `findFreeBlock(s)` over the whole list. */
  function FindFreeBlock(bs: seq<Block>, s: nat): (r: Option<nat>)
    ensures r.None? <==> NoFitIn(bs, s, |bs|)
    ensures r.Some? ==> IsBestFitIn(bs, s, |bs|, r.value)
  {
    BestFitIn(bs, s, |bs|)
  }

  /** Whenever some block is the best fit, the scan returns it. */
  lemma FindFreeBlockIsBestFit(bs: seq<Block>, s: nat, k: nat)
    requires IsBestFitIn(bs, s, |bs|, k)
    ensures FindFreeBlock(bs, s) == Some(k)
  {
  }

  /** The scan as the allocator runs it: follow `next` from `head` to NULL,
      keeping the best candidate seen so far. Reads the context only. */
  method ScanFreeList(h: Heap, s: nat) returns (best: Option<nat>)
    requires Valid(h)
    ensures best.None? <==> NoFitIn(h.blocks, s, |h.blocks|)
    ensures best.Some? ==> IsBestFitIn(h.blocks, s, |h.blocks|, best.value)
    ensures best == FindFreeBlock(h.blocks, s)
  {
    var curr := h.head;
    best := None;
    ghost var n := 0;
    while curr.Some?
      invariant n <= |h.blocks|
      invariant curr == (if n < |h.blocks| then Some(n) else None)
      invariant best.None? <==> NoFitIn(h.blocks, s, n)
      invariant best.Some? ==> IsBestFitIn(h.blocks, s, n, best.value)
      decreases |h.blocks| - n
    {
      var b := h.blocks[curr.value];
      if b.free && b.size >= s {
        if best.None? {
          best := Some(curr.value);
        } else if h.blocks[best.value].size > b.size {
          best := Some(curr.value);
        }
      }
      curr := b.next;
      n := n + 1;
    }
    if best.Some? {
      FindFreeBlockIsBestFit(h.blocks, s, best.value);
    }
  }
}
